=== FILE: README.md ===
# gitdox data access layer, modelled in Dafny

gitdox is a web tool for editing and annotating documents. Its data access
module `modules/gitdox_sql.py` keeps three SQLite tables: `docs` (documents
with their content, workflow fields and a stored validation report),
`metadata` (key/value rows scoped either to one document or to a corpus)
and `validate` (validation rules). Every data access function the model
covers runs one or two SQL statements. This project models those tables as
one immutable value and each function as a pure transition from the old
database to the new one (plus its result). The contracts say which documents lose their validation
report after each write, which rows a delete removes, and what the
`INSERT OR REPLACE` upsert keeps. The project also models two text rewrites:

- the `cell` helper and the URL auto-link rewrite that `print_meta` applies
  to the key and value cells of each row;
- the ampersand escape the editor's save action applies to the document
  text (`js/editor.js`).

Files:

- `wrappers.dfy`: `Option`, which stands for SQL NULL and for "no row".
- `collation.dfy`: SQLite's `COLLATE NOCASE` order (ASCII-only case folding,
  then code-point order, for keys without U+0000), proved total and transitive. It also holds
  `SortSet`, which lists a finite set in that order.
- `tables.dfy`: the rows, the `Db` record, the state invariant `Valid`, the
  frame predicates, and the three shared invalidation updates.
- `documents.dfy`: document creation, the setters, `delete_doc` and the
  document queries.
- `metadata.dfy`: `save_meta`, `delete_meta` and `get_doc_meta`.
- `rules.dfy`: validation-rule create, update and delete, and the rule queries.
- `meta_html.dfy`: `cell`, Python's `str` of an int, and the link rewrite.
- `editor_escape.dfy`: the ampersand escape.

Modelling choices:

- The metadata and rule ids are SQLite AUTOINCREMENT keys. The model keeps
  the `sqlite_sequence` value for each table (`metaSeq`, `ruleSeq`) and
  issues `seq + 1`. SQLite issues `max(seq, largest id) + 1`. The two agree
  on every state satisfying `Valid`, and every operation preserves `Valid`.
- An `UPDATE ... WHERE id=?` on a missing id changes nothing, so the setters
  have no precondition.
- A precondition appears only where the Python code raises:
  - `create_document` with an existing id breaks the primary key;
  - `get_doc_content` on a missing id indexes an empty result;
  - a corpus-scoped `save_meta` on a missing document unpacks an empty result.
- `get_all_docs` and the rule queries have no `ORDER BY`, so they return sets.
- The `invalidate_doc_by_name` and `invalidate_ether_docs` helpers are only
  ever called with the LIKE patterns `"%", "%"`. Every name and corpus
  matches those patterns, so they are modelled as "all documents" and
  "all documents in mode `ether`".

Behaviour worth noting, which the model keeps as the code has it:

- `delete_validate_rule` clears the report on every document, whatever the
  deleted rule's domain was (`modules/gitdox_sql.py:261`).
- A corpus-scoped `save_meta` inserts a row with a NULL docid
  (`modules/gitdox_sql.py:184`). SQLite treats NULLs as distinct in the
  UNIQUE (docid, key) constraint (`modules/gitdox_sql.py:37`), so a corpus
  save always adds a row and never replaces one
  (`Metadata.CorpusSaveAccumulates`).
- The link pattern `[^ <>]+` (`modules/gitdox_sql.py:166`) stops only at a
  space, `<` or `>`; tabs and newlines belong to the URL (`MetaHtml.UrlChar`).
- `delete_meta` deletes the row by metaid alone and then clears the report of
  the `doc_id` it was given, whether or not the row belonged to that document
  (`modules/gitdox_sql.py:192-194`).

## Model

| member | source | states |
|---|---|---|
| Tables.EmptyDbValid | modules/gitdox_sql.py:14-43 | the empty tables `setup_db` leaves, with no AUTOINCREMENT id issued, satisfy the invariant every operation preserves |
| Tables.InvalidateDocById | modules/gitdox_sql.py:95-96 | only the named document's report becomes NULL; no other column or document changes; a missing id changes nothing |
| Tables.InvalidateAll | modules/gitdox_sql.py:89-90 | with both patterns `%`, every document's report becomes NULL and every other column stays |
| Tables.InvalidateEther | modules/gitdox_sql.py:92-93 | exactly the documents in mode `ether` lose their report; the others keep theirs |
| Documents.CreateDocument | modules/gitdox_sql.py:47-49 | adds exactly one document with the given fields; mode is `xml` whatever `mode` is passed; validation, timestamp and cache are NULL; no other document, metadata row or rule changes; `Valid` is preserved |
| Documents.SaveChanges | modules/gitdox_sql.py:102-105 | only the content and validation of that document change; the content is the new text and the report is NULL |
| Documents.UpdateAssignee | modules/gitdox_sql.py:107-108 | only the assignee of that document changes; its report is kept |
| Documents.UpdateStatus | modules/gitdox_sql.py:110-111 | only the status of that document changes; its report is kept |
| Documents.UpdateDocname | modules/gitdox_sql.py:113-115 | only the name and validation of that document change; the report is NULL |
| Documents.UpdateFilename | modules/gitdox_sql.py:117-118 | only the filename of that document changes; its report is kept |
| Documents.UpdateCorpus | modules/gitdox_sql.py:120-122 | only the corpus and validation of that document change; the report is NULL |
| Documents.UpdateMode | modules/gitdox_sql.py:124-125 | only the mode of that document changes; its report is kept |
| Documents.UpdateSchema | modules/gitdox_sql.py:127-128 | only the schema of that document changes; its report is kept |
| Documents.UpdateValidation | modules/gitdox_sql.py:271-272 | only the report of that document changes, to the given text |
| Documents.UpdateTimestamp | modules/gitdox_sql.py:274-275 | only the timestamp of that document changes; its report is kept |
| Documents.SetCache | modules/gitdox_sql.py:61-63 | only the cache of that document changes; its report is kept |
| Documents.GetCache | modules/gitdox_sql.py:52-58 | a row comes back exactly when the document exists |
| Documents.CacheReadsBack | modules/gitdox_sql.py:52-63 | `get_cache` after `set_cache` returns the text just stored, and no row for a missing document |
| Documents.CacheKeptByOtherSetters | modules/gitdox_sql.py:52-58 | writing the content, name, corpus, report or timestamp of any document leaves every `get_cache` result unchanged |
| Documents.SettersAndValidation | modules/gitdox_sql.py:102-128 | save_changes, update_docname and update_corpus clear the report; update_assignee, status, filename, mode, schema and timestamp keep it |
| Documents.DeleteDocRow | modules/gitdox_sql.py:131 | exactly the document with that id is gone; every other document, the metadata and the rules are unchanged |
| Documents.DeleteDocMeta | modules/gitdox_sql.py:132 | a metadata row is removed exactly when its docid is the id; corpus rows and the rows of other documents stay unchanged; documents and rules are untouched |
| Documents.DeleteDoc | modules/gitdox_sql.py:130-132 | afterwards no document has the id and no metadata row has it as docid; every other document and every other metadata row is unchanged and still present; rules are untouched |
| Documents.GetDocInfo | modules/gitdox_sql.py:196-201 | a row comes back exactly when the document exists, holding its name, corpus, filename, status, assignee, mode and schema in that order |
| Documents.ModeReadsBack | modules/gitdox_sql.py:124-125 | after update_mode, get_doc_info reports the new mode and every other column as before |
| Documents.CreatedDocReadsBack | modules/gitdox_sql.py:47-49 | after creation, get_doc_info returns exactly the supplied fields with mode `xml`; get_doc_content returns the supplied content; doc_exists holds for the name and corpus |
| Documents.SaveContentExample | modules/gitdox_sql.py:203-205 | create doc 1 with `<a/>`, then save `<b/>`: the content reads `<a/>` and then `<b/>`, and the report is NULL |
| Documents.DocExists | modules/gitdox_sql.py:98-100 | doc_exists holds exactly when the listing of that corpus holds a row with that name |
| Documents.GetDocContent | modules/gitdox_sql.py:203-205 | the text returned is the content the unfiltered listing shows for that id |
| Documents.GetAllDocs | modules/gitdox_sql.py:207-217 | a document's row is returned exactly when it passes the given corpus and status filters, with its current id, name, corpus, mode and content |
| Documents.AllDocsFiltersIntersect | modules/gitdox_sql.py:207-217 | filtering by corpus and status together gives the intersection of the two single-filter results |
| Documents.GetCorpora | modules/gitdox_sql.py:230-231 | each corpus name that some document has appears exactly once, and no other name appears; the names are in NOCASE order |
| Metadata.SaveMeta | modules/gitdox_sql.py:181-189 | doc-scoped: afterwards exactly one row has that docid and key; it holds the value and the returned fresh metaid; the other rows are untouched; only that document loses its report. Corpus-scoped: one row is added with NULL docid and the document's corpus; no report changes |
| Metadata.SaveMetaRowCount | modules/gitdox_sql.py:37 | re-saving an existing key keeps the document's row count; a new key adds one row |
| Metadata.SaveMetaLastWriteWins | modules/gitdox_sql.py:186 | after two saves of one key, exactly one row has that key; it holds the second value, and the row count did not grow |
| Metadata.CorpusSaveAccumulates | modules/gitdox_sql.py:184 | two corpus saves of one key leave two rows with distinct metaids |
| Metadata.DeleteMeta | modules/gitdox_sql.py:191-194 | only the row with that metaid is removed; document-scoped deletes clear the given document's report; corpus-scoped deletes leave all reports alone |
| Metadata.GetDocMeta | modules/gitdox_sql.py:219-228 | document mode: exactly the rows with that docid. Corpus mode: nothing for a missing document, else exactly the rows of its corpus. Each row appears once, in NOCASE order of key |
| Collation.SortSet | modules/gitdox_sql.py:224 | lists every element of the set exactly once, in NOCASE order of the key |
| Collation.NoCaseIgnoresAsciiCase | modules/gitdox_sql.py:224 | keys that differ only in the case of ASCII letters compare equal under NOCASE, each sorting no later than the other |
| Collation.NoCaseLeTotal | modules/gitdox_sql.py:228 | any two keys are comparable under NOCASE |
| Collation.NoCaseLeTransitive | modules/gitdox_sql.py:231 | NOCASE comparisons chain |
| Rules.CreateValidateRule | modules/gitdox_sql.py:251-257 | adds one rule under the returned fresh id and changes no other rule; a `meta` rule clears every document's report, any other domain clears only mode `ether` documents; metadata and all other document columns stay |
| Rules.UpdateValidateRule | modules/gitdox_sql.py:263-268 | rewrites only that rule if it exists; invalidates by the new domain as on creation, even when the id is missing |
| Rules.DeleteValidateRule | modules/gitdox_sql.py:259-261 | removes only that rule and clears every document's report whatever the domain; metadata and all other document columns stay |
| Rules.GetValidateRules | modules/gitdox_sql.py:233-234 | exactly the stored rules with their ids |
| Rules.RulesOfDomain | modules/gitdox_sql.py:236-246 | exactly the stored rules of that domain |
| Rules.GetXmlRules | modules/gitdox_sql.py:236-237 | every stored rule of domain `xml`, under its id, and no other rule |
| Rules.GetMetaRules | modules/gitdox_sql.py:239-240 | every stored rule of domain `meta`, under its id, and no other rule |
| Rules.GetEtherRules | modules/gitdox_sql.py:242-243 | every stored rule of domain `ether`, under its id, and no other rule |
| Rules.GetExportRules | modules/gitdox_sql.py:245-246 | every stored rule of domain `export`, under its id, and no other rule |
| Rules.DomainQueriesCover | modules/gitdox_sql.py:236-246 | the four domain queries together return all rules exactly when every rule's domain is one of xml, meta, ether and export |
| Rules.DomainQueriesDisjoint | modules/gitdox_sql.py:236-246 | no rule is returned by two domain queries |
| Rules.CreatedRuleListed | modules/gitdox_sql.py:251-252 | a created rule is returned by the query for its domain, under the returned id |
| MetaHtml.Cell | modules/gitdox_sql.py:134-137 | a newline, a tab and `<td>`, then the text unescaped (an int in decimal), then `</td>` |
| MetaHtml.NatToDecimal | modules/gitdox_sql.py:135-136 | the decimal text of a natural number is digits only, non-empty, with no leading zero: zero is exactly `0` and any other number starts with a non-zero digit |
| MetaHtml.IntToDecimal | modules/gitdox_sql.py:135-136 | Python's `str` of an int: non-empty, a leading `-` exactly for a negative number, digits after it, and no leading zero unless the digits are just `0` |
| MetaHtml.DecimalRoundTrip | modules/gitdox_sql.py:136 | the text an int becomes reads back as that int |
| MetaHtml.MatchUrl | modules/gitdox_sql.py:166 | a match exactly when the text starts with `http://` or `https://` followed by at least one character other than space, `<` and `>`; the match extends as far as such characters go |
| MetaHtml.Linkify | modules/gitdox_sql.py:166 | the rewrite only inserts text: the output is at least as long as the input and begins with the same character |
| MetaHtml.LinkifyNoTd | modules/gitdox_sql.py:166 | text with no `<td>` passes through the rewrite unchanged |
| MetaHtml.LinkifyUrlCell | modules/gitdox_sql.py:164-166 | a cell whose text starts with a URL: the URL, up to the first space or `>`, is wrapped as `<a href="URL">URL</a>`; the rest of the text is copied |
| MetaHtml.LinkifyPlainCell | modules/gitdox_sql.py:164-166 | a cell whose text does not start with a URL comes out of the rewrite unchanged: nothing is escaped |
| EditorEscape.EscapeAmp | js/editor.js:34 | the escape only inserts text: the output is at least as long as the input and begins with the same character |
| EditorEscape.EscapeIsPositionwiseReplace | js/editor.js:34 | the output is the input with each `&` not followed by `amp;` replaced by `&amp;` and every other character copied, position by position |
| EditorEscape.EscapeEntity | js/editor.js:34 | a leading `&amp;` is left untouched |
| EditorEscape.EscapeNoAmp | js/editor.js:34 | a text with no `&` is returned unchanged |
| EditorEscape.EscapeWellEscaped | js/editor.js:34 | in the output every `&` is followed by `amp;` |
| EditorEscape.FixedPointIffWellEscaped | js/editor.js:34 | a text is unchanged by the escape exactly when every `&` in it is followed by `amp;` |
| EditorEscape.EscapeIdempotent | js/editor.js:34 | escaping twice equals escaping once |
| EditorEscape.EscapeLength | js/editor.js:34 | output length is input length plus 4 per replaced `&` |
| EditorEscape.EscapePreservesDecoding | js/editor.js:34 | decoding `&amp;` back to `&` gives the same text before and after the escape |
| EditorEscape.EscapeRoundTrip | js/editor.js:34 | for a text with no `&amp;`, decoding the escaped text gives the original back |

## Left out

- `setup_db` and `generic_query`: connections, DDL, commits and cursors. The tables are abstract maps instead.
- The ALTER TABLE fallback in `get_cache` and `set_cache`: the model assumes the `cache` column exists.
- `get_sorted_rules`: it pastes caller text into `ORDER BY`, so it has no abstract meaning.
- General SQL LIKE matching: the code only passes `%`. Also left out: the NULL name or corpus that `%` would not match, because Python's callers always supply strings.
- `print_meta` apart from `cell` and the link rewrite: the per-row assembly (one `<tr>` per `get_doc_meta` row, with cells for the key and the value and a delete cell carrying that row's metaid), the table wrapper, the colgroup and the delete button markup. They are HTML layout around the two modelled rewrites.
- A crash between the two DELETE statements of `delete_doc`: the model runs them as two steps, and both complete.
- Everything in `js/editor.js` except the escape on line 34 (pop-ups, AJAX, jtable widgets, DOM access).
- Concurrency and transaction isolation; SQLite's failure when an AUTOINCREMENT id passes 2^63-1.
- Ids outside [-2^63, 2^63-1] passed by callers: Python's sqlite3 raises OverflowError when it binds such an id (document ids, `doc_id`, `metaid`, rule ids). The model accepts any integer, so `CreateDocument` inserts such a document and the setters change nothing instead of failing.
- Collation.NoCaseLe: SQLite's NOCASE comparison stops at a U+0000 character and then compares lengths; the model compares the whole folded text, so keys holding U+0000 may be ordered differently.
- EditorEscape.EscapeLength: counts Unicode scalar values, as Dafny strings do; JavaScript's `.length` counts UTF-16 code units, so the counts differ for text outside the Basic Multilingual Plane. The escape itself is the same either way.
- Python's `int(doc_id)` conversions: ids are integers in the model.
- Metadata.GetDocMeta: states NOCASE sortedness, but not the order of keys that compare equal. SQL leaves that order to the engine.
- Documents.GetCorpora: same as GetDocMeta; the order of names equal under NOCASE is not stated.
- MetaHtml.LinkifyUrlCell: proved only for cell text without `<`. Text holding `<td>http...` would get rewritten again further on; `Linkify` itself models that case.
- MetaHtml.LinkifyPlainCell: same restriction to cell text without `<`.

=== FILE: collation.dfy ===
/**
 * SQLite's text ordering as used by `ORDER BY ... COLLATE NOCASE`.
 *
 * BINARY collation compares the UTF-8 encodings with memcmp, which orders
 * strings exactly like lexicographic comparison of their code points. NOCASE
 * first folds the 26 ASCII upper-case letters to lower case and leaves every
 * other character alone. SQLite's NOCASE comparison also stops at a U+0000
 * character and then compares lengths; this model compares the whole folded
 * text, so the two agree on keys that hold no U+0000.
 */
module Collation {

  /** NOCASE folding of one character: only 'A'..'Z' change. */
  function FoldChar(c: char): char {
    if 'A' <= c <= 'Z' then (c as int + 32) as char else c
  }

  function Fold(s: string): string {
    seq(|s|, i requires 0 <= i < |s| => FoldChar(s[i]))
  }

  /** Lexicographic order on code points; a proper prefix sorts first. */
  predicate LexLe(a: string, b: string)
    decreases |a|
  {
    |a| == 0 || (|b| > 0 && (a[0] < b[0] || (a[0] == b[0] && LexLe(a[1..], b[1..]))))
  }

  /** `a` sorts no later than `b` under COLLATE NOCASE. */
  predicate NoCaseLe(a: string, b: string) {
    LexLe(Fold(a), Fold(b))
  }

  lemma {:induction false} LexLeTotal(a: string, b: string)
    ensures LexLe(a, b) || LexLe(b, a)
    decreases |a|
  {
    if |a| > 0 && |b| > 0 && a[0] == b[0] {
      LexLeTotal(a[1..], b[1..]);
    }
  }

  lemma {:induction false} LexLeTransitive(a: string, b: string, c: string)
    requires LexLe(a, b) && LexLe(b, c)
    ensures LexLe(a, c)
    decreases |a|
  {
    if |a| > 0 && a[0] == b[0] && b[0] == c[0] {
      LexLeTransitive(a[1..], b[1..], c[1..]);
    }
  }

  /** NOCASE is a total preorder: any two keys are comparable ... */
  lemma NoCaseLeTotal(a: string, b: string)
    ensures NoCaseLe(a, b) || NoCaseLe(b, a)
  {
    LexLeTotal(Fold(a), Fold(b));
  }

  /** ... and comparisons chain. */
  lemma NoCaseLeTransitive(a: string, b: string, c: string)
    requires NoCaseLe(a, b) && NoCaseLe(b, c)
    ensures NoCaseLe(a, c)
  {
    LexLeTransitive(Fold(a), Fold(b), Fold(c));
  }

  /** Keys that differ only in the case of ASCII letters compare equal. */
  lemma NoCaseIgnoresAsciiCase(a: string, b: string)
    requires Fold(a) == Fold(b)
    ensures NoCaseLe(a, b) && NoCaseLe(b, a)
  {
    LexLeReflexive(Fold(a));
  }

  lemma {:induction false} LexLeReflexive(a: string)
    ensures LexLe(a, a)
    decreases |a|
  {
    if |a| > 0 {
      LexLeReflexive(a[1..]);
    }
  }

  /** `s` is in ascending NOCASE order of `key`. */
  ghost predicate Sorted<T>(s: seq<T>, key: T -> string) {
    forall i, j :: 0 <= i < j < |s| ==> NoCaseLe(key(s[i]), key(s[j]))
  }

  /** Inserts `x` into the sorted sequence `s`, before the first element that sorts after it. */
  function Insert<T>(x: T, s: seq<T>, key: T -> string): (r: seq<T>)
    requires Sorted(s, key)
    ensures Sorted(r, key)
    ensures multiset(r) == multiset(s) + multiset{x}
    decreases |s|
  {
    if |s| == 0 then [x]
    else if NoCaseLe(key(x), key(s[0])) then
      InsertFront(x, s, key);
      [x] + s
    else
      var t := Insert(x, s[1..], key);
      NoCaseLeTotal(key(x), key(s[0]));
      InsertBehind(x, s, t, key);
      assert s == [s[0]] + s[1..];
      [s[0]] + t
  }

  lemma InsertFront<T>(x: T, s: seq<T>, key: T -> string)
    requires Sorted(s, key) && |s| > 0 && NoCaseLe(key(x), key(s[0]))
    ensures Sorted([x] + s, key)
  {
    forall j | 1 <= j < |s| + 1
      ensures NoCaseLe(key(x), key(([x] + s)[j]))
    {
      if j > 1 {
        NoCaseLeTransitive(key(x), key(s[0]), key(s[j - 1]));
      }
    }
  }

  lemma InsertBehind<T>(x: T, s: seq<T>, t: seq<T>, key: T -> string)
    requires Sorted(s, key) && |s| > 0 && NoCaseLe(key(s[0]), key(x))
    requires Sorted(t, key) && multiset(t) == multiset(s[1..]) + multiset{x}
    ensures Sorted([s[0]] + t, key)
  {
    forall j | 0 <= j < |t|
      ensures NoCaseLe(key(s[0]), key(t[j]))
    {
      assert t[j] in multiset(t);
      if t[j] != x {
        assert t[j] in s[1..];
        var k :| 1 <= k < |s| && s[k] == t[j];
      }
    }
  }

  /**
   * Lists a finite set in ascending NOCASE order of `key`, each element
   * exactly once. Elements with equal keys may come in any order.
   */
  method SortSet<T>(s: set<T>, key: T -> string) returns (r: seq<T>)
    ensures multiset(r) == multiset(s)
    ensures Sorted(r, key)
    ensures |r| == |s|
    ensures forall x :: x in r <==> x in s
    ensures forall i, j :: 0 <= i < j < |r| ==> r[i] != r[j]
  {
    var rest := s;
    r := [];
    while rest != {}
      invariant rest <= s
      invariant Sorted(r, key)
      invariant multiset(r) == multiset(s - rest)
      decreases |rest|
    {
      var x :| x in rest;
      r := Insert(x, r, key);
      assert s - (rest - {x}) == (s - rest) + {x};
      rest := rest - {x};
    }
    assert s - rest == s;
    assert |r| == |multiset(r)| == |multiset(s)|;
    forall x
      ensures x in r <==> x in s
    {
      assert x in r <==> x in multiset(r);
    }
    DistinctFromMultiset(r);
  }

  /** A sequence listing a set, each element once, holds no element twice. */
  lemma DistinctFromMultiset<T>(r: seq<T>)
    requires forall x :: multiset(r)[x] <= 1
    ensures forall i, j :: 0 <= i < j < |r| ==> r[i] != r[j]
  {
    forall i, j | 0 <= i < j < |r|
      ensures r[i] != r[j]
    {
      if r[i] == r[j] {
        RepeatCounted(r, i, j);
        assert false;
      }
    }
  }

  lemma RepeatCounted<T>(r: seq<T>, i: int, j: int)
    requires 0 <= i < j < |r| && r[i] == r[j]
    ensures multiset(r)[r[i]] >= 2
  {
    assert r == r[..i] + [r[i]] + r[i+1..j] + [r[j]] + r[j+1..];
  }
}

=== FILE: documents.dfy ===
/**
 * The document operations of gitdox_sql.py: creation, the per-column
 * setters (some of which invalidate the stored validation result), the
 * two-statement delete, and the document queries.
 */
module Documents {
  import opened Wrappers
  import opened Tables
  import Collation

  /**
   * create_document. The INSERT writes the literal 'xml' into `mode`, so the
   * `mode` argument is accepted and ignored. `id` is the primary key: inserting
   * an id that is already present raises an integrity error.
   */
  function CreateDocument(db: Db, id: int, name: string, corpus: string, status: string, assignee: string,
                          filename: string, content: string, mode: string := "xml", schema: string := "--none--"): (r: Db)
    requires id !in db.docs
    ensures r == db.(docs := r.docs)
    ensures r.docs.Keys == db.docs.Keys + {id}
    ensures forall other :: other in db.docs ==> r.docs[other] == db.docs[other]
    ensures var d := r.docs[id];
      && d.name == name && d.corpus == corpus && d.status == status && d.assignee == assignee
      && d.filename == filename && d.content == content && d.schema == schema
      && d.mode == "xml"
      && d.validation == None && d.timestamp == None && d.cache == None
    ensures Valid(db) ==> Valid(r)
  {
    db.(docs := db.docs[id := Doc(name, corpus, status, assignee, filename, content, "xml", schema, None, None, None)])
  }

  /** UPDATE docs SET <column> WHERE id=?: writes `d` over document `id`, or matches no row. */
  function Put(db: Db, id: int, d: Doc): Db {
    if id in db.docs then db.(docs := db.docs[id := d]) else db
  }

  /** save_changes: writes the content, then invalidates the document. */
  function SaveChanges(db: Db, id: int, content: string): (r: Db)
    ensures ChangesOnlyDoc(db, r, id, {Content, Validation})
    ensures id in db.docs ==> r.docs[id].content == content && r.docs[id].validation == None
    ensures Valid(db) ==> Valid(r)
  {
    var written := if id in db.docs then Put(db, id, db.docs[id].(content := content)) else db;
    InvalidateDocById(written, id)
  }

  /** update_assignee: no invalidation. */
  function UpdateAssignee(db: Db, id: int, userName: string): (r: Db)
    ensures ChangesOnlyDoc(db, r, id, {Assignee})
    ensures id in db.docs ==> r.docs[id].assignee == userName
    ensures Valid(db) ==> Valid(r)
  {
    if id in db.docs then Put(db, id, db.docs[id].(assignee := userName)) else db
  }

  /** update_status: no invalidation. */
  function UpdateStatus(db: Db, id: int, status: string): (r: Db)
    ensures ChangesOnlyDoc(db, r, id, {Status})
    ensures id in db.docs ==> r.docs[id].status == status
    ensures Valid(db) ==> Valid(r)
  {
    if id in db.docs then Put(db, id, db.docs[id].(status := status)) else db
  }

  /** update_docname: renames, then invalidates the document. */
  function UpdateDocname(db: Db, id: int, docname: string): (r: Db)
    ensures ChangesOnlyDoc(db, r, id, {Name, Validation})
    ensures id in db.docs ==> r.docs[id].name == docname && r.docs[id].validation == None
    ensures Valid(db) ==> Valid(r)
  {
    var written := if id in db.docs then Put(db, id, db.docs[id].(name := docname)) else db;
    InvalidateDocById(written, id)
  }

  /** update_filename: no invalidation. */
  function UpdateFilename(db: Db, id: int, filename: string): (r: Db)
    ensures ChangesOnlyDoc(db, r, id, {Filename})
    ensures id in db.docs ==> r.docs[id].filename == filename
    ensures Valid(db) ==> Valid(r)
  {
    if id in db.docs then Put(db, id, db.docs[id].(filename := filename)) else db
  }

  /** update_corpus: moves the document to another corpus, then invalidates it. */
  function UpdateCorpus(db: Db, id: int, corpusName: string): (r: Db)
    ensures ChangesOnlyDoc(db, r, id, {Corpus, Validation})
    ensures id in db.docs ==> r.docs[id].corpus == corpusName && r.docs[id].validation == None
    ensures Valid(db) ==> Valid(r)
  {
    var written := if id in db.docs then Put(db, id, db.docs[id].(corpus := corpusName)) else db;
    InvalidateDocById(written, id)
  }

  /** update_mode: no invalidation, although the mode decides which rule changes reach the document. */
  function UpdateMode(db: Db, id: int, mode: string): (r: Db)
    ensures ChangesOnlyDoc(db, r, id, {Mode})
    ensures id in db.docs ==> r.docs[id].mode == mode
    ensures Valid(db) ==> Valid(r)
  {
    if id in db.docs then Put(db, id, db.docs[id].(mode := mode)) else db
  }

  /** update_schema: no invalidation. */
  function UpdateSchema(db: Db, id: int, schema: string): (r: Db)
    ensures ChangesOnlyDoc(db, r, id, {Schema})
    ensures id in db.docs ==> r.docs[id].schema == schema
    ensures Valid(db) ==> Valid(r)
  {
    if id in db.docs then Put(db, id, db.docs[id].(schema := schema)) else db
  }

  /** update_validation: the validation engine stores its report. */
  function UpdateValidation(db: Db, id: int, validation: string): (r: Db)
    ensures ChangesOnlyDoc(db, r, id, {Validation})
    ensures id in db.docs ==> r.docs[id].validation == Some(validation)
    ensures Valid(db) ==> Valid(r)
  {
    if id in db.docs then Put(db, id, db.docs[id].(validation := Some(validation))) else db
  }

  /** update_timestamp: no invalidation. */
  function UpdateTimestamp(db: Db, id: int, timestamp: string): (r: Db)
    ensures ChangesOnlyDoc(db, r, id, {Timestamp})
    ensures id in db.docs ==> r.docs[id].timestamp == Some(timestamp)
    ensures Valid(db) ==> Valid(r)
  {
    if id in db.docs then Put(db, id, db.docs[id].(timestamp := Some(timestamp))) else db
  }

  /** set_cache, with the cache column already present: no invalidation. */
  function SetCache(db: Db, id: int, contents: string): (r: Db)
    ensures ChangesOnlyDoc(db, r, id, {Cache})
    ensures id in db.docs ==> r.docs[id].cache == Some(contents)
    ensures Valid(db) ==> Valid(r)
  {
    if id in db.docs then Put(db, id, db.docs[id].(cache := Some(contents))) else db
  }

  /** get_cache: the cache column of the document's row, or no row at all. */
  function GetCache(db: Db, id: int): (r: Option<Option<string>>)
    ensures r.Some? <==> id in db.docs
    ensures r.Some? ==> r.value == db.docs[id].cache
  {
    if id in db.docs then Some(db.docs[id].cache) else None
  }

  /** First statement of delete_doc: DELETE FROM docs WHERE id=?. */
  function DeleteDocRow(db: Db, id: int): (r: Db)
    ensures r.docs.Keys == db.docs.Keys - {id}
    ensures forall other :: other in r.docs ==> r.docs[other] == db.docs[other]
    ensures r.metadata == db.metadata && r.rules == db.rules
    ensures r.metaSeq == db.metaSeq && r.ruleSeq == db.ruleSeq
  {
    db.(docs := db.docs - {id})
  }

  /**
   * Second statement of delete_doc: DELETE FROM metadata WHERE docid=?.
   * A row goes exactly when it is scoped to the document; corpus rows stay.
   */
  function DeleteDocMeta(db: Db, id: int): (r: Db)
    ensures forall m :: m in r.metadata <==> m in db.metadata && db.metadata[m].docid != Some(id)
    ensures forall m :: m in r.metadata ==> r.metadata[m] == db.metadata[m]
    ensures r.docs == db.docs && r.rules == db.rules
    ensures r.metaSeq == db.metaSeq && r.ruleSeq == db.ruleSeq
  {
    db.(metadata := map m | m in db.metadata && db.metadata[m].docid != Some(id) :: db.metadata[m])
  }

  /**
   * delete_doc: removes the document row, then every metadata row scoped to
   * it. Corpus-scoped rows have a NULL docid and survive, even when this was
   * the last document of its corpus.
   */
  function DeleteDoc(db: Db, id: int): (r: Db)
    ensures id !in r.docs
    ensures r.docs.Keys == db.docs.Keys - {id}
    ensures forall other :: other in r.docs ==> r.docs[other] == db.docs[other]
    ensures forall m :: m in r.metadata ==> r.metadata[m].docid != Some(id)
    ensures forall m :: m in r.metadata ==> m in db.metadata && r.metadata[m] == db.metadata[m]
    ensures forall m :: m in db.metadata && db.metadata[m].docid != Some(id) ==> m in r.metadata
    ensures r.rules == db.rules && r.metaSeq == db.metaSeq && r.ruleSeq == db.ruleSeq
    ensures Valid(db) ==> Valid(r)
  {
    DeleteDocMeta(DeleteDocRow(db, id), id)
  }

  /**
   * doc_exists: some document has exactly this name and corpus, which is the
   * same as the listing of that corpus holding a row with the name.
   */
  function DocExists(db: Db, name: string, corpus: string): (r: bool)
    ensures r <==> exists row :: row in GetAllDocs(db, Some(corpus), None) && row.name == name
  {
    StoredIffListed(db, name, corpus);
    exists id :: id in db.docs && db.docs[id].name == name && db.docs[id].corpus == corpus
  }

  /** The columns get_doc_info selects, in its order. */
  datatype DocInfo = DocInfo(name: string, corpus: string, filename: string, status: string,
                             assignee: string, mode: string, schema: string)

  /** get_doc_info: the row's descriptive columns, or the empty result when no document has this id. */
  function GetDocInfo(db: Db, id: int): (r: Option<DocInfo>)
    ensures r.Some? <==> id in db.docs
    ensures r.Some? ==>
      var d := db.docs[id];
      r.value == DocInfo(d.name, d.corpus, d.filename, d.status, d.assignee, d.mode, d.schema)
  {
    if id in db.docs then
      var d := db.docs[id];
      Some(DocInfo(d.name, d.corpus, d.filename, d.status, d.assignee, d.mode, d.schema))
    else None
  }

  /**
   * get_doc_content: indexes the first row, so the document must exist. The
   * text is the one the unfiltered listing shows for that id.
   */
  function GetDocContent(db: Db, id: int): (r: string)
    requires id in db.docs
    ensures exists row :: row in GetAllDocs(db, None, None) && row.id == id && row.content == r
    ensures forall row :: row in GetAllDocs(db, None, None) && row.id == id ==> row.content == r
  {
    assert Row(db, id) in GetAllDocs(db, None, None);
    db.docs[id].content
  }

  /** The columns get_all_docs selects. */
  datatype DocRow = DocRow(id: int, name: string, corpus: string, mode: string, content: string)

  /**
   * get_all_docs: every document, narrowed by corpus and/or status when given.
   * The query has no ORDER BY, so the rows are a set.
   */
  function GetAllDocs(db: Db, corpus: Option<string>, status: Option<string>): (r: set<DocRow>)
    ensures forall row :: row in r ==> row.id in db.docs
    ensures forall id :: id in db.docs ==>
      (var d := db.docs[id];
       (DocRow(id, d.name, d.corpus, d.mode, d.content) in r <==>
          (corpus.None? || corpus.value == d.corpus) && (status.None? || status.value == d.status)))
    ensures forall row :: row in r ==>
      (var d := db.docs[row.id];
       row == DocRow(row.id, d.name, d.corpus, d.mode, d.content))
  {
    match (corpus, status)
    case (None, None) =>
      set id | id in db.docs :: Row(db, id)
    case (None, Some(s)) =>
      set id | id in db.docs && db.docs[id].status == s :: Row(db, id)
    case (Some(c), None) =>
      set id | id in db.docs && db.docs[id].corpus == c :: Row(db, id)
    case (Some(c), Some(s)) =>
      set id | id in db.docs && db.docs[id].corpus == c && db.docs[id].status == s :: Row(db, id)
  }

  function Row(db: Db, id: int): DocRow
    requires id in db.docs
  {
    var d := db.docs[id];
    DocRow(id, d.name, d.corpus, d.mode, d.content)
  }

  /** The corpus names get_corpora lists: SELECT DISTINCT corpus FROM docs. */
  function Corpora(db: Db): set<string> {
    set id | id in db.docs :: db.docs[id].corpus
  }

  /**
   * get_corpora: each distinct corpus name once (DISTINCT compares case
   * sensitively), in NOCASE order.
   */
  method GetCorpora(db: Db) returns (r: seq<string>)
    ensures forall c :: c in r <==> exists id :: id in db.docs && db.docs[id].corpus == c
    ensures forall i, j :: 0 <= i < j < |r| ==> r[i] != r[j]
    ensures forall i, j :: 0 <= i < j < |r| ==> Collation.NoCaseLe(r[i], r[j])
  {
    r := Collation.SortSet(Corpora(db), c => c);
  }

  /** A created document reads back with exactly the supplied fields, and mode "xml". */
  lemma CreatedDocReadsBack(db: Db, id: int, name: string, corpus: string, status: string, assignee: string,
                            filename: string, content: string, mode: string, schema: string)
    requires id !in db.docs
    ensures var r := CreateDocument(db, id, name, corpus, status, assignee, filename, content, mode, schema);
      && GetDocInfo(r, id) == Some(DocInfo(name, corpus, filename, status, assignee, "xml", schema))
      && GetDocContent(r, id) == content
      && DocExists(r, name, corpus)
  {
  }

  /**
   * Of the setters, exactly save_changes, update_docname and update_corpus
   * clear the validation result; the others leave it as it was.
   */
  lemma SettersAndValidation(db: Db, id: int, v: string)
    requires id in db.docs
    ensures SaveChanges(db, id, v).docs[id].validation == None
    ensures UpdateDocname(db, id, v).docs[id].validation == None
    ensures UpdateCorpus(db, id, v).docs[id].validation == None
    ensures UpdateAssignee(db, id, v).docs[id].validation == db.docs[id].validation
    ensures UpdateStatus(db, id, v).docs[id].validation == db.docs[id].validation
    ensures UpdateFilename(db, id, v).docs[id].validation == db.docs[id].validation
    ensures UpdateMode(db, id, v).docs[id].validation == db.docs[id].validation
    ensures UpdateSchema(db, id, v).docs[id].validation == db.docs[id].validation
    ensures UpdateTimestamp(db, id, v).docs[id].validation == db.docs[id].validation
  {
  }

  /**
   * Creating document 1 with content "<a/>" and then saving "<b/>" leaves the
   * new content readable and the validation result cleared.
   */
  lemma SaveContentExample(db: Db)
    requires 1 !in db.docs
    ensures var created := CreateDocument(db, 1, "d1", "c1", "new", "u", "f.xml", "<a/>");
      && GetDocContent(created, 1) == "<a/>"
      && var saved := SaveChanges(created, 1, "<b/>");
         GetDocContent(saved, 1) == "<b/>" && saved.docs[1].validation == None
  {
  }

  /** get_all_docs with both filters returns the rows both single-filter queries return. */
  lemma AllDocsFiltersIntersect(db: Db, corpus: string, status: string)
    ensures GetAllDocs(db, Some(corpus), Some(status)) == GetAllDocs(db, Some(corpus), None) * GetAllDocs(db, None, Some(status))
    ensures GetAllDocs(db, Some(corpus), Some(status)) <= GetAllDocs(db, None, None)
  {
  }

  /** A stored document with the name and corpus is exactly a listed row of that corpus with the name. */
  lemma StoredIffListed(db: Db, name: string, corpus: string)
    ensures (exists id :: id in db.docs && db.docs[id].name == name && db.docs[id].corpus == corpus)
        <==> exists row :: row in GetAllDocs(db, Some(corpus), None) && row.name == name
  {
    if exists id :: id in db.docs && db.docs[id].name == name && db.docs[id].corpus == corpus {
      var id :| id in db.docs && db.docs[id].name == name && db.docs[id].corpus == corpus;
      assert Row(db, id) in GetAllDocs(db, Some(corpus), None);
    }
  }

  /** get_cache after set_cache returns the text just stored, and nothing for a missing document. */
  lemma CacheReadsBack(db: Db, id: int, contents: string)
    ensures GetCache(SetCache(db, id, contents), id) == if id in db.docs then Some(Some(contents)) else None
  {
  }

  /** Writes to the other columns leave get_cache unchanged. */
  lemma CacheKeptByOtherSetters(db: Db, id: int, other: int, text: string)
    ensures GetCache(SaveChanges(db, other, text), id) == GetCache(db, id)
    ensures GetCache(UpdateDocname(db, other, text), id) == GetCache(db, id)
    ensures GetCache(UpdateCorpus(db, other, text), id) == GetCache(db, id)
    ensures GetCache(UpdateValidation(db, other, text), id) == GetCache(db, id)
    ensures GetCache(UpdateTimestamp(db, other, text), id) == GetCache(db, id)
  {
  }

  /** get_doc_info reports the mode update_mode stored, and the other columns as before. */
  lemma ModeReadsBack(db: Db, id: int, mode: string)
    requires id in db.docs
    ensures GetDocInfo(UpdateMode(db, id, mode), id) == Some(GetDocInfo(db, id).value.(mode := mode))
  {
  }
}

=== FILE: editor_escape.dfy ===
/**
 * The ampersand escaping that the editor's save action applies to the
 * document text before submitting it: `replace(/&(?!amp;)/g, '&amp;')`.
 * Every '&' that is not already followed by "amp;" becomes "&amp;". The
 * lookahead reads the original text, never the replacement, so a recursion
 * over suffixes of the input computes exactly the global replacement.
 */
module EditorEscape {

  /** `s` begins with the text "amp;". */
  predicate StartsAmp(s: string) {
    |s| >= 4 && s[..4] == "amp;"
  }

  /** Position `i` of `s` holds an '&' the regular expression matches. */
  predicate BareAmp(s: string, i: int)
    requires 0 <= i < |s|
  {
    s[i] == '&' && !StartsAmp(s[i + 1..])
  }

  /**
   * The escape itself. It only ever inserts text: the output is at least as
   * long as the input and begins with the same character.
   */
  function EscapeAmp(s: string): (r: string)
    ensures |r| >= |s|
    ensures |s| > 0 ==> |r| > 0 && r[0] == s[0]
    decreases |s|
  {
    if |s| == 0 then []
    else if BareAmp(s, 0) then "&amp;" + EscapeAmp(s[1..])
    else [s[0]] + EscapeAmp(s[1..])
  }

  /** What the replacement emits for position `i` of the input on its own. */
  function EmitAt(s: string, i: int): string
    requires 0 <= i < |s|
  {
    if BareAmp(s, i) then "&amp;" else [s[i]]
  }

  /** The concatenation of what positions i, i+1, ... of `s` emit. */
  function EmitFrom(s: string, i: int): string
    requires 0 <= i <= |s|
    decreases |s| - i
  {
    if i == |s| then [] else EmitAt(s, i) + EmitFrom(s, i + 1)
  }

  /**
   * The global replacement, position by position: each '&' not followed by
   * "amp;" in the input is replaced by "&amp;", and every other character is
   * copied.
   */
  lemma EscapeIsPositionwiseReplace(s: string)
    ensures EscapeAmp(s) == EmitFrom(s, 0)
  {
    EmitFromShift(s, 0);
  }

  lemma {:induction false} EmitFromShift(s: string, i: int)
    requires 0 <= i <= |s|
    ensures EmitFrom(s, i) == EscapeAmp(s[i..])
    decreases |s| - i
  {
    if i < |s| {
      EmitFromShift(s, i + 1);
      assert s[i..][1..] == s[i + 1..];
      assert s[i..][0] == s[i];
    }
  }

  /** Non-'&' characters pass through unchanged. */
  lemma EscapeOther(c: char, t: string)
    requires c != '&'
    ensures EscapeAmp([c] + t) == [c] + EscapeAmp(t)
  {
  }

  /** An '&' that is not followed by "amp;" becomes "&amp;". */
  lemma EscapeBare(t: string)
    requires !StartsAmp(t)
    ensures EscapeAmp("&" + t) == "&amp;" + EscapeAmp(t)
  {
  }

  /** The four characters of "amp;" pass through unchanged. */
  lemma EscapeAmpText(t: string)
    ensures EscapeAmp("amp;" + t) == "amp;" + EscapeAmp(t)
  {
    assert "amp;" + t == ['a'] + ("mp;" + t);
    assert "mp;" + t == ['m'] + ("p;" + t);
    assert "p;" + t == ['p'] + (";" + t);
    assert ";" + t == [';'] + t;
    EscapeOther('a', "mp;" + t);
    EscapeOther('m', "p;" + t);
    EscapeOther('p', ";" + t);
    EscapeOther(';', t);
  }

  /** An existing "&amp;" is left untouched. */
  lemma EscapeEntity(t: string)
    ensures EscapeAmp("&amp;" + t) == "&amp;" + EscapeAmp(t)
  {
    var s := "&amp;" + t;
    assert s[1..] == "amp;" + t;
    assert StartsAmp(s[1..]);
    EscapeAmpText(t);
  }

  /** A text without any '&' is returned unchanged. */
  lemma {:induction false} EscapeNoAmp(s: string)
    requires '&' !in s
    ensures EscapeAmp(s) == s
    decreases |s|
  {
    if |s| > 0 {
      EscapeNoAmp(s[1..]);
    }
  }

  /** Every '&' in `s` is followed by "amp;". */
  predicate WellEscaped(s: string) {
    forall i :: 0 <= i < |s| && s[i] == '&' ==> StartsAmp(s[i + 1..])
  }

  /** Text that begins with "amp;" still does after escaping. */
  lemma EscapeKeepsAmpPrefix(s: string)
    requires StartsAmp(s)
    ensures StartsAmp(EscapeAmp(s))
  {
    assert s == "amp;" + s[4..];
    EscapeAmpText(s[4..]);
  }

  /** In the output, every '&' begins "&amp;". */
  lemma {:induction false} EscapeWellEscaped(s: string)
    ensures WellEscaped(EscapeAmp(s))
    decreases |s|
  {
    if |s| > 0 {
      EscapeWellEscaped(s[1..]);
      var tail := EscapeAmp(s[1..]);
      var r := EscapeAmp(s);
      if BareAmp(s, 0) {
        assert r == "&amp;" + tail;
        forall i | 0 <= i < |r| && r[i] == '&'
          ensures StartsAmp(r[i + 1..])
        {
          if i >= 5 {
            assert r[i + 1..] == tail[i - 4..];
          } else {
            assert i == 0;
            assert r[1..5] == "amp;";
          }
        }
      } else {
        assert r == [s[0]] + tail;
        forall i | 0 <= i < |r| && r[i] == '&'
          ensures StartsAmp(r[i + 1..])
        {
          if i >= 1 {
            assert r[i + 1..] == tail[i..];
          } else {
            EscapeKeepsAmpPrefix(s[1..]);
            assert r[1..] == tail;
          }
        }
      }
    }
  }

  /** A well-escaped text is a fixed point, and only well-escaped texts are. */
  lemma {:induction false} FixedPointIffWellEscaped(s: string)
    ensures EscapeAmp(s) == s <==> WellEscaped(s)
    decreases |s|
  {
    if WellEscaped(s) {
      if |s| > 0 {
        WellEscapedTail(s);
        FixedPointIffWellEscaped(s[1..]);
        assert !BareAmp(s, 0);
        assert s == [s[0]] + s[1..];
      }
    } else {
      EscapeWellEscaped(s);
    }
  }

  lemma WellEscapedTail(s: string)
    requires |s| > 0 && WellEscaped(s)
    ensures WellEscaped(s[1..])
  {
  }

  /** Escaping twice is escaping once. */
  lemma EscapeIdempotent(s: string)
    ensures EscapeAmp(EscapeAmp(s)) == EscapeAmp(s)
  {
    EscapeWellEscaped(s);
    FixedPointIffWellEscaped(EscapeAmp(s));
  }

  /** The number of '&' characters the replacement rewrites. */
  function BareCount(s: string): nat
    decreases |s|
  {
    if |s| == 0 then 0 else (if BareAmp(s, 0) then 1 else 0) + BareCount(s[1..])
  }

  /** Each rewritten '&' grows the text by the four characters of "amp;". */
  lemma {:induction false} EscapeLength(s: string)
    ensures |EscapeAmp(s)| == |s| + 4 * BareCount(s)
    decreases |s|
  {
    if |s| > 0 {
      EscapeLength(s[1..]);
    }
  }

  /** Decoding of the entity "&amp;" back to '&', as an XML reader does. */
  function UnescapeAmp(s: string): string
    decreases |s|
  {
    if |s| == 0 then []
    else if s[0] == '&' && StartsAmp(s[1..]) then "&" + UnescapeAmp(s[5..])
    else [s[0]] + UnescapeAmp(s[1..])
  }

  lemma UnescapeOther(c: char, t: string)
    requires c != '&'
    ensures UnescapeAmp([c] + t) == [c] + UnescapeAmp(t)
  {
  }

  lemma UnescapeEntity(t: string)
    ensures UnescapeAmp("&amp;" + t) == "&" + UnescapeAmp(t)
  {
  }

  /**
   * Escaping never changes what the text decodes to: the decoded text of the
   * output is the decoded text of the input.
   */
  lemma {:induction false} EscapePreservesDecoding(s: string)
    ensures UnescapeAmp(EscapeAmp(s)) == UnescapeAmp(s)
    decreases |s|
  {
    if |s| > 0 {
      if s[0] == '&' && StartsAmp(s[1..]) {
        var t := s[5..];
        assert s == "&amp;" + t;
        EscapeEntity(t);
        UnescapeEntity(EscapeAmp(t));
        EscapePreservesDecoding(t);
      } else if s[0] == '&' {
        EscapeBare(s[1..]);
        assert s == "&" + s[1..];
        UnescapeEntity(EscapeAmp(s[1..]));
        EscapePreservesDecoding(s[1..]);
      } else {
        assert s == [s[0]] + s[1..];
        EscapeOther(s[0], s[1..]);
        UnescapeOther(s[0], EscapeAmp(s[1..]));
        EscapePreservesDecoding(s[1..]);
      }
    }
  }

  /** No "&amp;" occurs in `s`. */
  predicate NoEntity(s: string) {
    forall i :: 0 <= i < |s| && s[i] == '&' ==> !StartsAmp(s[i + 1..])
  }

  /** A text without any "&amp;" is decoded to itself ... */
  lemma {:induction false} UnescapeNoEntity(s: string)
    requires NoEntity(s)
    ensures UnescapeAmp(s) == s
    decreases |s|
  {
    if |s| > 0 {
      assert NoEntity(s[1..]) by {
        forall i | 0 <= i < |s[1..]| && s[1..][i] == '&'
          ensures !StartsAmp(s[1..][i + 1..])
        {
          assert s[1..][i + 1..] == s[i + 2..];
        }
      }
      UnescapeNoEntity(s[1..]);
    }
  }

  /** ... so for such a text decoding inverts escaping. */
  lemma EscapeRoundTrip(s: string)
    requires NoEntity(s)
    ensures UnescapeAmp(EscapeAmp(s)) == s
  {
    EscapePreservesDecoding(s);
    UnescapeNoEntity(s);
  }
}

=== FILE: meta_html.dfy ===
/**
 * The table cells print_meta builds for a metadata listing: `cell`, which
 * wraps a value in a <td> element with no escaping, and the regular
 * expression rewrite `(<td>)(https?://[^ <>]+)` -> `\1<a href="\2">\2</a>`
 * that turns a cell starting with a URL into a link.
 */
module MetaHtml {
  import opened Wrappers

  /** The argument of `cell`: a string, or an int that is first turned into text. */
  datatype CellText = Text(text: string) | Number(n: int)

  predicate IsDigit(c: char) {
    '0' <= c <= '9'
  }

  function DigitChar(d: int): char
    requires 0 <= d <= 9
  {
    ('0' as int + d) as char
  }

  /** Python's str of a non-negative int: its decimal digits, no leading zero. */
  function NatToDecimal(n: nat): (r: string)
    ensures |r| > 0
    ensures forall i :: 0 <= i < |r| ==> IsDigit(r[i])
    ensures r[0] == '0' <==> n == 0
    ensures n == 0 ==> r == "0"
    decreases n
  {
    if n < 10 then [DigitChar(n)] else NatToDecimal(n / 10) + [DigitChar(n % 10)]
  }

  /** Python's str of an int: a minus sign before the digits of a negative number. */
  function IntToDecimal(n: int): (r: string)
    ensures |r| > 0
    ensures r[0] == '-' <==> n < 0
    ensures forall i :: 1 <= i < |r| ==> IsDigit(r[i])
    ensures var d := if n < 0 then r[1..] else r; |d| > 0 && (d[0] == '0' ==> d == "0")
  {
    if n < 0 then "-" + NatToDecimal(-n) else NatToDecimal(n)
  }

  /** The value of a string of decimal digits. */
  function DecimalValue(s: string): nat
    requires forall i :: 0 <= i < |s| ==> IsDigit(s[i])
    decreases |s|
  {
    if |s| == 0 then 0
    else
      assert IsDigit(s[|s| - 1]);
      DecimalValue(s[..|s| - 1]) * 10 + (s[|s| - 1] as int - '0' as int)
  }

  /** The value of an optionally signed decimal numeral. */
  function IntValue(s: string): int
    requires |s| > 0
    requires s[0] == '-' ==> forall i :: 1 <= i < |s| ==> IsDigit(s[i])
    requires s[0] != '-' ==> forall i :: 0 <= i < |s| ==> IsDigit(s[i])
  {
    if s[0] == '-' then 0 - DecimalValue(s[1..]) else DecimalValue(s)
  }

  lemma {:induction false} NatDecimalRoundTrip(n: nat)
    ensures DecimalValue(NatToDecimal(n)) == n
    decreases n
  {
    if n >= 10 {
      NatDecimalRoundTrip(n / 10);
      var r := NatToDecimal(n);
      assert r[..|r| - 1] == NatToDecimal(n / 10);
    }
  }

  /** The text of a number in a cell reads back as that number. */
  lemma DecimalRoundTrip(n: int)
    ensures var s := IntToDecimal(n); |s| > 0 && IntValue(s) == n
  {
    if n < 0 {
      NatDecimalRoundTrip(-n);
      assert IntToDecimal(n)[1..] == NatToDecimal(-n);
    } else {
      NatDecimalRoundTrip(n);
    }
  }

  function CellString(t: CellText): string {
    match t
    case Text(s) => s
    case Number(n) => IntToDecimal(n)
  }

  const CellOpen: string := "\n\t<td>"
  const CellClose: string := "</td>"

  /**
   * cell: a newline, a tab, <td>, the text (an int is converted first) and
   * </td>. Nothing in the text is escaped.
   */
  function Cell(t: CellText): (r: string)
    ensures |r| == |CellOpen| + |CellString(t)| + |CellClose|
    ensures r[..6] == CellOpen && r[|r| - 5..] == CellClose
    ensures r[6..|r| - 5] == CellString(t)
  {
    CellOpen + CellString(t) + CellClose
  }

  /** A character `[^ <>]` accepts: anything but a space, '<' and '>'. Tabs and newlines are accepted. */
  predicate UrlChar(c: char) {
    c != ' ' && c != '<' && c != '>'
  }

  /** The length of the longest prefix of `s` made of URL characters (the greedy `[^ <>]*`). */
  function UrlRun(s: string): (k: nat)
    ensures k <= |s|
    ensures forall i :: 0 <= i < k ==> UrlChar(s[i])
    ensures k < |s| ==> !UrlChar(s[k])
    decreases |s|
  {
    if |s| > 0 && UrlChar(s[0]) then 1 + UrlRun(s[1..]) else 0
  }

  /** `s` begins with `p`. */
  predicate StartsWith(s: string, p: string) {
    |p| <= |s| && forall i :: 0 <= i < |p| ==> s[i] == p[i]
  }

  /** The length of the `https?://` prefix of `s`: 8, 7, or 0 when `s` starts with neither scheme. */
  function SchemeLen(s: string): nat {
    if StartsWith(s, "https://") then 8 else if StartsWith(s, "http://") then 7 else 0
  }

  /**
   * The URL `https?://[^ <>]+` matches at the start of `s`, if any. The
   * optional 's' is tried first; when "https://" is not followed by a URL
   * character, dropping the 's' cannot help since "://" would have to start
   * at the 's'.
   */
  function MatchUrl(s: string): (r: Option<string>)
    ensures r.Some? <==> SchemeLen(s) > 0 && SchemeLen(s) < |s| && UrlChar(s[SchemeLen(s)])
    ensures r.Some? ==> StartsWith(s, r.value) && SchemeLen(s) < |r.value|
    ensures r.Some? ==> forall i :: SchemeLen(s) <= i < |r.value| ==> UrlChar(s[i])
    ensures r.Some? ==> |r.value| == |s| || !UrlChar(s[|r.value|])
  {
    var k := SchemeLen(s);
    if k > 0 && UrlRun(s[k..]) > 0 then Some(s[..k + UrlRun(s[k..])]) else None
  }

  /** "<td>" starts at position `i` of `s`. */
  predicate TdAt(s: string, i: int)
    requires 0 <= i
  {
    i + 4 <= |s| && s[i] == '<' && s[i + 1] == 't' && s[i + 2] == 'd' && s[i + 3] == '>'
  }

  /** One link: `<td><a href="URL">URL</a>`, the replacement `\1<a href="\2">\2</a>`. */
  function LinkCell(url: string): string {
    "<td><a href=\"" + url + "\">" + url + "</a>"
  }

  /**
   * re.sub over the whole cell: scanning left to right, wherever "<td>" is
   * followed by a URL the two are replaced by the link and scanning resumes
   * after the URL; every other character is copied.
   */
  function Linkify(s: string): (r: string)
    ensures |r| >= |s|
    ensures |s| > 0 ==> |r| > 0 && r[0] == s[0]
    decreases |s|
  {
    if |s| == 0 then []
    else if TdAt(s, 0) && MatchUrl(s[4..]).Some? then
      var url := MatchUrl(s[4..]).value;
      LinkCell(url) + Linkify(s[4 + |url|..])
    else [s[0]] + Linkify(s[1..])
  }

  /** "<td>" occurs nowhere in `s`. */
  predicate NoTd(s: string) {
    forall i :: 0 <= i < |s| ==> !TdAt(s, i)
  }

  /** Text without any "<td>" passes through the rewrite unchanged. */
  lemma {:induction false} LinkifyNoTd(s: string)
    requires NoTd(s)
    ensures Linkify(s) == s
    decreases |s|
  {
    if |s| > 0 {
      assert !TdAt(s, 0);
      assert NoTd(s[1..]) by {
        forall i | 0 <= i < |s[1..]|
          ensures !TdAt(s[1..], i)
        {
          assert !TdAt(s, i + 1);
        }
      }
      LinkifyNoTd(s[1..]);
      assert s == [s[0]] + s[1..];
    }
  }

  /** A text without '<' followed by the closing tag holds no "<td>". */
  lemma NoTdBeforeClose(t: string)
    requires '<' !in t
    ensures NoTd(t + CellClose)
  {
  }

  /** The closing tag cannot complete a scheme ... */
  lemma SchemeBeforeClose(t: string, p: string)
    requires p == "https://" || p == "http://"
    ensures StartsWith(t + CellClose, p) <==> StartsWith(t, p)
  {
    var s := t + CellClose;
    if |t| < |p| {
      assert s[|t|] == '<';
    }
  }

  /** ... nor extend a URL. */
  lemma {:induction false} RunBeforeClose(u: string)
    ensures UrlRun(u + CellClose) == UrlRun(u)
    decreases |u|
  {
    if |u| > 0 {
      assert (u + CellClose)[1..] == u[1..] + CellClose;
      RunBeforeClose(u[1..]);
    } else {
      assert (u + CellClose)[0] == '<';
    }
  }

  /** What the rewrite finds after a cell's "<td>" depends on the text alone. */
  lemma MatchUrlBeforeClose(t: string)
    ensures MatchUrl(t + CellClose) == MatchUrl(t)
  {
    var s := t + CellClose;
    SchemeBeforeClose(t, "https://");
    SchemeBeforeClose(t, "http://");
    assert SchemeLen(s) == SchemeLen(t);
    var k := SchemeLen(t);
    if k > 0 {
      assert s[k..] == t[k..] + CellClose;
      RunBeforeClose(t[k..]);
      var n := UrlRun(t[k..]);
      assert UrlRun(s[k..]) == n;
      assert s[..k + n] == t[..k + n];
    }
  }

  /** Where no link starts, the rewrite copies one character. */
  lemma LinkifyCopies(s: string)
    requires |s| > 0 && (!TdAt(s, 0) || MatchUrl(s[4..]).None?)
    ensures Linkify(s) == [s[0]] + Linkify(s[1..])
  {
  }

  /** Where a link starts, the rewrite emits it and resumes after the URL. */
  lemma LinkifyLinks(s: string, url: string)
    requires TdAt(s, 0) && MatchUrl(s[4..]) == Some(url)
    ensures Linkify(s) == LinkCell(url) + Linkify(s[4 + |url|..])
  {
  }

  /** The rewrite copies the newline and tab that open a cell. */
  lemma LinkifyCellOpen(s: string, inner: string)
    requires s == "\n\t" + inner
    ensures Linkify(s) == "\n\t" + Linkify(inner)
  {
    assert s[0] == '\n';
    LinkifyCopies(s);
    assert s[1..] == "\t" + inner;
    assert s[1..][0] == '\t';
    LinkifyCopies(s[1..]);
    assert s[1..][1..] == inner;
  }

  /** After the cell's "<td>", the rewrite finds no URL when the text starts with none. */
  lemma CellOpensNoLink(t: string, inner: string)
    requires inner == "<td>" + t + CellClose
    requires MatchUrl(t).None?
    ensures MatchUrl(inner[4..]).None?
    ensures inner[1..] == ("td>" + t) + CellClose
  {
    assert inner[4..] == t + CellClose;
    MatchUrlBeforeClose(t);
  }

  lemma LinkifyPlainInner(t: string, inner: string)
    requires inner == "<td>" + t + CellClose
    requires '<' !in t && MatchUrl(t).None?
    ensures Linkify(inner) == inner
  {
    CellOpensNoLink(t, inner);
    LinkifyCopies(inner);
    var rest := "td>" + t;
    assert '<' !in rest;
    LinkifyCellTail(rest);
    assert inner == [inner[0]] + inner[1..];
  }

  /**
   * A cell whose text has no '<' and does not start with a URL comes out of
   * the rewrite exactly as `cell` built it.
   */
  lemma LinkifyPlainCell(t: string)
    requires '<' !in t && MatchUrl(t).None?
    ensures Linkify(Cell(Text(t))) == Cell(Text(t))
  {
    var inner := "<td>" + t + CellClose;
    var cell := Cell(Text(t));
    assert cell == "\n\t" + inner;
    LinkifyCellOpen(cell, inner);
    LinkifyPlainInner(t, inner);
  }

  /** After the cell's "<td>", the rewrite finds the URL the text starts with. */
  lemma CellOpensLink(t: string, inner: string, url: string)
    requires inner == "<td>" + t + CellClose
    requires MatchUrl(t) == Some(url)
    ensures TdAt(inner, 0) && MatchUrl(inner[4..]) == Some(url)
    ensures inner[4 + |url|..] == t[|url|..] + CellClose
  {
    assert inner[4..] == t + CellClose;
    MatchUrlBeforeClose(t);
  }

  /** What follows the URL is copied, up to and including the closing tag. */
  lemma LinkifyCellTail(rest: string)
    requires '<' !in rest
    ensures Linkify(rest + CellClose) == rest + CellClose
  {
    NoTdBeforeClose(rest);
    LinkifyNoTd(rest + CellClose);
  }

  lemma LinkifyUrlInner(t: string, inner: string, url: string)
    requires inner == "<td>" + t + CellClose
    requires '<' !in t && MatchUrl(t) == Some(url)
    ensures Linkify(inner) == LinkCell(url) + (t[|url|..] + CellClose)
  {
    CellOpensLink(t, inner, url);
    LinkifyLinks(inner, url);
    var rest := t[|url|..];
    assert '<' !in rest;
    LinkifyCellTail(rest);
  }

  /**
   * A cell whose text has no '<' and starts with a URL: the URL, up to the
   * first space or '>', is wrapped in a link that shows it, and the rest of
   * the text follows unchanged.
   */
  lemma LinkifyUrlCell(t: string, url: string)
    requires '<' !in t && MatchUrl(t) == Some(url)
    ensures Linkify(Cell(Text(t))) == "\n\t" + (LinkCell(url) + (t[|url|..] + CellClose))
  {
    var inner := "<td>" + t + CellClose;
    var cell := Cell(Text(t));
    assert cell == "\n\t" + inner;
    LinkifyCellOpen(cell, inner);
    LinkifyUrlInner(t, inner, url);
  }
}

=== FILE: metadata.dfy ===
/**
 * The metadata operations of gitdox_sql.py: save_meta (an INSERT OR REPLACE
 * upsert), delete_meta and get_doc_meta.
 */
module Metadata {
  import opened Wrappers
  import opened Tables
  import Collation

  /** A row as `SELECT *` returns it: the metaid together with the other columns. */
  datatype MetaEntry = MetaEntry(metaid: int, row: MetaRow)

  /** The metaids of the rows scoped to document `docId`. */
  function DocRowIds(md: map<int, MetaRow>, docId: int): set<int> {
    set m | m in md && md[m].docid == Some(docId)
  }

  /** `row` is the row a document-scoped save of `key` for `docId` collides with. */
  predicate Collides(row: MetaRow, docId: int, key: string) {
    row.docid == Some(docId) && row.key == key
  }

  /**
   * save_meta. Document-scoped: INSERT OR REPLACE with docid `docId`; the
   * UNIQUE (docid, key) constraint makes SQLite delete the old row for that key,
   * so the surviving row has a new metaid, which is returned; the document's
   * validation result is then cleared. Corpus-scoped: the corpus is read from
   * get_doc_info, whose empty result for a missing document cannot be unpacked,
   * so the document must exist; the row has a NULL docid, and since NULLs are
   * distinct in a UNIQUE constraint it never replaces an earlier row; no
   * document is invalidated.
   */
  function SaveMeta(db: Db, docId: int, key: string, value: string, corpus: bool := false): (r: (Db, int))
    requires corpus ==> docId in db.docs
    ensures r.0.metaSeq == r.1
    ensures Valid(db) ==> r.1 !in db.metadata && Valid(r.0)
    ensures r.0.rules == db.rules && r.0.ruleSeq == db.ruleSeq
    ensures !corpus ==> r.1 in r.0.metadata && r.0.metadata[r.1] == MetaRow(Some(docId), key, value, None)
    ensures !corpus ==> forall m :: m in r.0.metadata && Collides(r.0.metadata[m], docId, key) ==> m == r.1
    ensures !corpus ==> forall m :: m in db.metadata && m != r.1 && !Collides(db.metadata[m], docId, key) ==>
                                      m in r.0.metadata && r.0.metadata[m] == db.metadata[m]
    ensures !corpus ==> forall m :: m in r.0.metadata ==> m == r.1 || m in db.metadata
    ensures !corpus ==> InvalidatedExactly(db.docs, r.0.docs, {docId})
    ensures corpus ==> r.0.metadata == db.metadata[r.1 := MetaRow(None, key, value, Some(db.docs[docId].corpus))]
    ensures corpus ==> r.0.docs == db.docs
  {
    var newId := db.metaSeq + 1;
    if corpus then
      var row := MetaRow(None, key, value, Some(db.docs[docId].corpus));
      (db.(metadata := db.metadata[newId := row], metaSeq := newId), newId)
    else
      var kept := map m | m in db.metadata && !Collides(db.metadata[m], docId, key) :: db.metadata[m];
      var row := MetaRow(Some(docId), key, value, None);
      var inserted := db.(metadata := kept[newId := row], metaSeq := newId);
      (InvalidateDocById(inserted, docId), newId)
  }

  /**
   * delete_meta: deletes the row with this metaid, whichever document it
   * belongs to, and unless corpus-scoped clears the validation result of
   * document `docId`.
   */
  function DeleteMeta(db: Db, metaid: int, docId: int, corpus: bool := false): (r: Db)
    ensures metaid !in r.metadata
    ensures r.metadata.Keys == db.metadata.Keys - {metaid}
    ensures forall m :: m in r.metadata ==> r.metadata[m] == db.metadata[m]
    ensures r.rules == db.rules && r.metaSeq == db.metaSeq && r.ruleSeq == db.ruleSeq
    ensures !corpus ==> InvalidatedExactly(db.docs, r.docs, {docId})
    ensures corpus ==> r.docs == db.docs
    ensures Valid(db) ==> Valid(r)
  {
    var deleted := db.(metadata := db.metadata - {metaid});
    if corpus then deleted else InvalidateDocById(deleted, docId)
  }

  /** The rows `SELECT * FROM metadata WHERE docid=?` finds. */
  function DocEntries(db: Db, docId: int): set<MetaEntry> {
    set m | m in db.metadata && db.metadata[m].docid == Some(docId) :: MetaEntry(m, db.metadata[m])
  }

  /** The rows `SELECT * FROM metadata WHERE corpus_meta=?` finds. */
  function CorpusEntries(db: Db, corpusName: string): set<MetaEntry> {
    set m | m in db.metadata && db.metadata[m].corpusMeta == Some(corpusName) :: MetaEntry(m, db.metadata[m])
  }

  /** The entry is a row of the table. */
  predicate Stored(db: Db, e: MetaEntry) {
    e.metaid in db.metadata && db.metadata[e.metaid] == e.row
  }

  function EntryKey(e: MetaEntry): string {
    e.row.key
  }

  /**
   * get_doc_meta. Document mode: the rows scoped to `docId`, whether or not
   * the document exists. Corpus mode: None when the document does not exist,
   * else the rows of its corpus. Rows come in NOCASE order of key; SQL fixes
   * no order among keys that compare equal.
   */
  method GetDocMeta(db: Db, docId: int, corpus: bool := false) returns (r: Option<seq<MetaEntry>>)
    ensures !corpus ==>
      (r.Some? && forall e :: e in r.value <==> Stored(db, e) && e.row.docid == Some(docId))
    ensures corpus ==> (r.Some? <==> docId in db.docs)
    ensures corpus && r.Some? ==>
      forall e :: e in r.value <==> Stored(db, e) && e.row.corpusMeta == Some(db.docs[docId].corpus)
    ensures r.Some? ==> forall i, j :: 0 <= i < j < |r.value| ==> r.value[i] != r.value[j]
    ensures r.Some? ==> forall i, j :: 0 <= i < j < |r.value| ==>
      Collation.NoCaseLe(r.value[i].row.key, r.value[j].row.key)
  {
    if corpus {
      if docId in db.docs {
        var rows := Collation.SortSet(CorpusEntries(db, db.docs[docId].corpus), EntryKey);
        r := Some(rows);
      } else {
        r := None;
      }
    } else {
      var rows := Collation.SortSet(DocEntries(db, docId), EntryKey);
      r := Some(rows);
    }
  }

  /**
   * Saving a key a document already has replaces its row, so the document's
   * row count stays put; saving a new key adds exactly one row.
   */
  lemma SaveMetaRowCount(db: Db, docId: int, key: string, value: string)
    requires Valid(db)
    ensures var r := SaveMeta(db, docId, key, value);
      |DocRowIds(r.0.metadata, docId)| ==
        |DocRowIds(db.metadata, docId)| + (if HasKey(db, docId, key) then 0 else 1)
  {
    if HasKey(db, docId, key) {
      var prev :| prev in db.metadata && Collides(db.metadata[prev], docId, key);
      SaveMetaReplacesRow(db, docId, key, value, prev);
    } else {
      SaveMetaAddsRow(db, docId, key, value);
    }
  }

  /** Document `docId` has a row for `key`. */
  predicate HasKey(db: Db, docId: int, key: string) {
    exists m :: m in db.metadata && Collides(db.metadata[m], docId, key)
  }

  lemma SaveMetaReplacesRow(db: Db, docId: int, key: string, value: string, prev: int)
    requires Valid(db) && prev in db.metadata && Collides(db.metadata[prev], docId, key)
    ensures var r := SaveMeta(db, docId, key, value);
      DocRowIds(r.0.metadata, docId) == DocRowIds(db.metadata, docId) - {prev} + {r.1}
  {
    var r := SaveMeta(db, docId, key, value);
    forall m | m in DocRowIds(db.metadata, docId) - {prev}
      ensures m in DocRowIds(r.0.metadata, docId)
    {
      assert !Collides(db.metadata[m], docId, key);
    }
  }

  lemma SaveMetaAddsRow(db: Db, docId: int, key: string, value: string)
    requires Valid(db) && !HasKey(db, docId, key)
    ensures var r := SaveMeta(db, docId, key, value);
      DocRowIds(r.0.metadata, docId) == DocRowIds(db.metadata, docId) + {r.1}
  {
    var r := SaveMeta(db, docId, key, value);
    var before := DocRowIds(db.metadata, docId);
    var after := DocRowIds(r.0.metadata, docId);
    forall m | m in before
      ensures m in after
    {
      assert !Collides(db.metadata[m], docId, key);
    }
  }

  /**
   * Last write wins: saving a key twice for a document leaves exactly one row
   * for that key, holding the second value, and no more rows than the first
   * save left.
   */
  lemma SaveMetaLastWriteWins(db: Db, docId: int, key: string, v1: string, v2: string)
    requires Valid(db)
    ensures var first := SaveMeta(db, docId, key, v1);
      var second := SaveMeta(first.0, docId, key, v2);
      && (forall m :: m in second.0.metadata && Collides(second.0.metadata[m], docId, key) ==>
            m == second.1 && second.0.metadata[m].value == v2)
      && second.1 in second.0.metadata && Collides(second.0.metadata[second.1], docId, key)
      && |DocRowIds(second.0.metadata, docId)| == |DocRowIds(first.0.metadata, docId)|
  {
    var first := SaveMeta(db, docId, key, v1);
    assert Collides(first.0.metadata[first.1], docId, key);
    SaveMetaRowCount(first.0, docId, key, v2);
  }

  /**
   * Corpus-scoped saves never replace: saving the same key twice for a
   * corpus leaves both rows, each with its own metaid.
   */
  lemma CorpusSaveAccumulates(db: Db, docId: int, key: string, v1: string, v2: string)
    requires Valid(db) && docId in db.docs
    ensures var first := SaveMeta(db, docId, key, v1, true);
      var second := SaveMeta(first.0, docId, key, v2, true);
      var c := Some(db.docs[docId].corpus);
      && first.1 != second.1
      && first.1 in second.0.metadata && second.0.metadata[first.1] == MetaRow(None, key, v1, c)
      && second.1 in second.0.metadata && second.0.metadata[second.1] == MetaRow(None, key, v2, c)
  {
  }
}


=== FILE: rules.dfy ===
/**
 * The validation-rule operations of gitdox_sql.py: create, update and delete,
 * each followed by an invalidation whose reach depends on the rule's domain,
 * and the per-domain rule queries.
 */
module Rules {
  import opened Tables

  /** The columns the rule queries select: the rule with its id. */
  datatype RuleEntry = RuleEntry(id: int, rule: Rule)

  /**
   * The invalidation that follows creating or updating a rule: a "meta" rule
   * reaches every document, a rule of any other domain only those in mode "ether".
   */
  function InvalidateForDomain(db: Db, domain: string): Db {
    if domain == "meta" then InvalidateAll(db) else InvalidateEther(db)
  }

  /** create_validate_rule: inserts under a fresh AUTOINCREMENT id, invalidates, returns the id. */
  function CreateValidateRule(db: Db, doc: string, corpus: string, domain: string, name: string,
                              operator: string, argument: string): (r: (Db, int))
    ensures r.0.ruleSeq == r.1
    ensures r.1 in r.0.rules && r.0.rules[r.1] == Rule(doc, corpus, domain, name, operator, argument)
    ensures forall i :: i in db.rules && i != r.1 ==> i in r.0.rules && r.0.rules[i] == db.rules[i]
    ensures forall i :: i in r.0.rules ==> i == r.1 || i in db.rules
    ensures Valid(db) ==> r.1 !in db.rules && Valid(r.0)
    ensures r.0.metadata == db.metadata && r.0.metaSeq == db.metaSeq
    ensures domain == "meta" ==> InvalidatedExactly(db.docs, r.0.docs, db.docs.Keys)
    ensures domain != "meta" ==> InvalidatedExactly(db.docs, r.0.docs, EtherDocs(db.docs))
  {
    var newId := db.ruleSeq + 1;
    var inserted := db.(rules := db.rules[newId := Rule(doc, corpus, domain, name, operator, argument)], ruleSeq := newId);
    (InvalidateForDomain(inserted, domain), newId)
  }

  /**
   * update_validate_rule: rewrites rule `id` if it exists; the invalidation
   * follows the new domain and happens even when no rule has that id.
   */
  function UpdateValidateRule(db: Db, doc: string, corpus: string, domain: string, name: string,
                              operator: string, argument: string, id: int): (r: Db)
    ensures r.rules.Keys == db.rules.Keys
    ensures id in db.rules ==> r.rules[id] == Rule(doc, corpus, domain, name, operator, argument)
    ensures forall i :: i in db.rules && i != id ==> r.rules[i] == db.rules[i]
    ensures r.metadata == db.metadata && r.metaSeq == db.metaSeq && r.ruleSeq == db.ruleSeq
    ensures domain == "meta" ==> InvalidatedExactly(db.docs, r.docs, db.docs.Keys)
    ensures domain != "meta" ==> InvalidatedExactly(db.docs, r.docs, EtherDocs(db.docs))
    ensures Valid(db) ==> Valid(r)
  {
    var written := if id in db.rules then db.(rules := db.rules[id := Rule(doc, corpus, domain, name, operator, argument)]) else db;
    InvalidateForDomain(written, domain)
  }

  /**
   * delete_validate_rule: removes rule `id` and clears the validation result of
   * every document, whatever the deleted rule's domain was.
   */
  function DeleteValidateRule(db: Db, id: int): (r: Db)
    ensures id !in r.rules
    ensures r.rules.Keys == db.rules.Keys - {id}
    ensures forall i :: i in r.rules ==> r.rules[i] == db.rules[i]
    ensures r.metadata == db.metadata && r.metaSeq == db.metaSeq && r.ruleSeq == db.ruleSeq
    ensures InvalidatedExactly(db.docs, r.docs, db.docs.Keys)
    ensures Valid(db) ==> Valid(r)
  {
    InvalidateAll(db.(rules := db.rules - {id}))
  }

  /** get_validate_rules: every rule. The query has no ORDER BY, so the rows are a set. */
  function GetValidateRules(db: Db): (r: set<RuleEntry>)
    ensures forall e :: e in r <==> e.id in db.rules && db.rules[e.id] == e.rule
  {
    set i | i in db.rules :: RuleEntry(i, db.rules[i])
  }

  /** The rules of one domain: SELECT ... FROM validate WHERE domain = '<domain>'. */
  function RulesOfDomain(db: Db, domain: string): (r: set<RuleEntry>)
    ensures forall e :: e in r <==> e in GetValidateRules(db) && e.rule.domain == domain
  {
    set i | i in db.rules && db.rules[i].domain == domain :: RuleEntry(i, db.rules[i])
  }

  /** get_xml_rules: every stored rule whose domain is "xml", under its id, and nothing else. */
  function GetXmlRules(db: Db): (r: set<RuleEntry>)
    ensures forall e :: e in r ==> e.rule.domain == "xml" && e.id in db.rules && db.rules[e.id] == e.rule
    ensures forall i :: i in db.rules && db.rules[i].domain == "xml" ==> RuleEntry(i, db.rules[i]) in r
  {
    RulesOfDomain(db, "xml")
  }

  /** get_meta_rules: every stored rule whose domain is "meta", under its id, and nothing else. */
  function GetMetaRules(db: Db): (r: set<RuleEntry>)
    ensures forall e :: e in r ==> e.rule.domain == "meta" && e.id in db.rules && db.rules[e.id] == e.rule
    ensures forall i :: i in db.rules && db.rules[i].domain == "meta" ==> RuleEntry(i, db.rules[i]) in r
  {
    RulesOfDomain(db, "meta")
  }

  /** get_ether_rules: every stored rule whose domain is "ether", under its id, and nothing else. */
  function GetEtherRules(db: Db): (r: set<RuleEntry>)
    ensures forall e :: e in r ==> e.rule.domain == "ether" && e.id in db.rules && db.rules[e.id] == e.rule
    ensures forall i :: i in db.rules && db.rules[i].domain == "ether" ==> RuleEntry(i, db.rules[i]) in r
  {
    RulesOfDomain(db, "ether")
  }

  /** get_export_rules: every stored rule whose domain is "export", under its id, and nothing else. */
  function GetExportRules(db: Db): (r: set<RuleEntry>)
    ensures forall e :: e in r ==> e.rule.domain == "export" && e.id in db.rules && db.rules[e.id] == e.rule
    ensures forall i :: i in db.rules && db.rules[i].domain == "export" ==> RuleEntry(i, db.rules[i]) in r
  {
    RulesOfDomain(db, "export")
  }

  /** The four domain queries never return the same rule twice ... */
  lemma DomainQueriesDisjoint(db: Db)
    ensures GetXmlRules(db) !! GetMetaRules(db) && GetXmlRules(db) !! GetEtherRules(db)
    ensures GetXmlRules(db) !! GetExportRules(db) && GetMetaRules(db) !! GetEtherRules(db)
    ensures GetMetaRules(db) !! GetExportRules(db) && GetEtherRules(db) !! GetExportRules(db)
  {
  }

  /** ... and together return every rule exactly when every rule is in one of the four domains. */
  lemma DomainQueriesCover(db: Db)
    ensures (GetXmlRules(db) + GetMetaRules(db) + GetEtherRules(db) + GetExportRules(db) == GetValidateRules(db))
        <==> (forall i :: i in db.rules ==> db.rules[i].domain in {"xml", "meta", "ether", "export"})
  {
    var union := GetXmlRules(db) + GetMetaRules(db) + GetEtherRules(db) + GetExportRules(db);
    if forall i :: i in db.rules ==> db.rules[i].domain in {"xml", "meta", "ether", "export"} {
      assert union == GetValidateRules(db);
    } else {
      var i :| i in db.rules && db.rules[i].domain !in {"xml", "meta", "ether", "export"};
      assert RuleEntry(i, db.rules[i]) in GetValidateRules(db) - union;
    }
  }

  /** A created rule is listed by the query for its domain, under the id create_validate_rule returned. */
  lemma CreatedRuleListed(db: Db, doc: string, corpus: string, domain: string, name: string, operator: string, argument: string)
    ensures var r := CreateValidateRule(db, doc, corpus, domain, name, operator, argument);
      RuleEntry(r.1, Rule(doc, corpus, domain, name, operator, argument)) in RulesOfDomain(r.0, domain)
  {
  }
}

=== FILE: tables.dfy ===
/**
 * The three tables of the gitdox database (`docs`, `metadata`, `validate`),
 * held as one immutable value, together with the invariants the data access
 * functions keep and the three invalidation updates they share.
 */
module Tables {
  import opened Wrappers

  /** One row of `docs`. `validation`, `timestamp` and `cache` are NULL until written. */
  datatype Doc = Doc(
    name: string,
    corpus: string,
    status: string,
    assignee: string,
    filename: string,
    content: string,
    mode: string,
    schema: string,
    validation: Option<string>,
    timestamp: Option<string>,
    cache: Option<string>)

  /**
   * One row of `metadata` (its `metaid` is the map key). A document-scoped row
   * carries `docid`; a corpus-scoped row carries `corpusMeta` and a NULL `docid`.
   */
  datatype MetaRow = MetaRow(docid: Option<int>, key: string, value: string, corpusMeta: Option<string>)

  /** One row of `validate` (its `id` is the map key). */
  datatype Rule = Rule(doc: string, corpus: string, domain: string, name: string, operator: string, argument: string)

  /**
   * The database. `metaSeq` and `ruleSeq` are the AUTOINCREMENT counters that
   * SQLite keeps in `sqlite_sequence`: the largest id ever issued for the table.
   * Document ids are supplied by the caller, so `docs` has no counter.
   */
  datatype Db = Db(
    docs: map<int, Doc>,
    metadata: map<int, MetaRow>,
    rules: map<int, Rule>,
    metaSeq: int,
    ruleSeq: int)

  /** The columns of `docs`, used to say which of them an update may touch. */
  datatype Field = Name | Corpus | Status | Assignee | Filename | Content | Mode | Schema | Validation | Timestamp | Cache

  function FieldOf(d: Doc, f: Field): Option<string> {
    match f
    case Name => Some(d.name)
    case Corpus => Some(d.corpus)
    case Status => Some(d.status)
    case Assignee => Some(d.assignee)
    case Filename => Some(d.filename)
    case Content => Some(d.content)
    case Mode => Some(d.mode)
    case Schema => Some(d.schema)
    case Validation => d.validation
    case Timestamp => d.timestamp
    case Cache => d.cache
  }

  /** `d` and `e` agree on every column outside `fs`. */
  predicate SameExcept(d: Doc, e: Doc, fs: set<Field>) {
    forall f :: f !in fs ==> FieldOf(d, f) == FieldOf(e, f)
  }

  /**
   * `after` differs from `before` only in the columns `fs` of document `id`:
   * the same documents exist, and every other document and table is as it was.
   */
  predicate ChangesOnlyDoc(before: Db, after: Db, id: int, fs: set<Field>) {
    && after == before.(docs := after.docs)
    && after.docs.Keys == before.docs.Keys
    && (forall other :: other in before.docs && other != id ==> after.docs[other] == before.docs[other])
    && (id in before.docs ==> SameExcept(before.docs[id], after.docs[id], fs))
  }

  /**
   * `after` is `before` with the validation result of exactly the documents
   * in `ids` set to NULL; nothing else about any document changes.
   */
  predicate InvalidatedExactly(before: map<int, Doc>, after: map<int, Doc>, ids: set<int>) {
    && after.Keys == before.Keys
    && (forall id :: id in before ==> SameExcept(before[id], after[id], {Validation}))
    && (forall id :: id in before ==>
          after[id].validation == (if id in ids then None else before[id].validation))
  }

  /** No two document-scoped rows share a docid and a key: the UNIQUE (docid, key) constraint. */
  predicate DocKeysUnique(md: map<int, MetaRow>) {
    forall a, b :: a in md && b in md && a != b && md[a].docid.Some? && md[a].docid == md[b].docid ==> md[a].key != md[b].key
  }

  /** What every state reachable through the data access functions satisfies. */
  predicate Valid(db: Db) {
    && (forall m :: m in db.metadata ==> m <= db.metaSeq)
    && (forall i :: i in db.rules ==> i <= db.ruleSeq)
    && (forall m :: m in db.metadata ==> (db.metadata[m].docid.Some? <==> db.metadata[m].corpusMeta.None?))
    && DocKeysUnique(db.metadata)
  }

  /** The state setup_db leaves: three empty tables and no AUTOINCREMENT id issued yet. */
  const EmptyDb: Db := Db(map[], map[], map[], 0, 0)

  /** The starting state satisfies the invariant every operation preserves. */
  lemma EmptyDbValid()
    ensures Valid(EmptyDb)
  {
  }

  /** The documents `invalidate_ether_docs("%", "%")` reaches: those in mode "ether". */
  function EtherDocs(docs: map<int, Doc>): set<int> {
    set id | id in docs && docs[id].mode == "ether"
  }

  /** invalidate_doc_by_id: clears the validation result of one document, if it exists. */
  function InvalidateDocById(db: Db, id: int): (r: Db)
    ensures ChangesOnlyDoc(db, r, id, {Validation})
    ensures InvalidatedExactly(db.docs, r.docs, {id})
  {
    if id in db.docs then db.(docs := db.docs[id := db.docs[id].(validation := None)]) else db
  }

  /**
   * invalidate_doc_by_name("%", "%"): both LIKE patterns are "%", which every
   * name and corpus matches, so every document loses its validation result.
   */
  function InvalidateAll(db: Db): (r: Db)
    ensures r == db.(docs := r.docs)
    ensures InvalidatedExactly(db.docs, r.docs, db.docs.Keys)
  {
    db.(docs := map id | id in db.docs :: db.docs[id].(validation := None))
  }

  /** invalidate_ether_docs("%", "%"): only documents in mode "ether" lose their validation result. */
  function InvalidateEther(db: Db): (r: Db)
    ensures r == db.(docs := r.docs)
    ensures InvalidatedExactly(db.docs, r.docs, EtherDocs(db.docs))
  {
    db.(docs := map id | id in db.docs ::
                  if db.docs[id].mode == "ether" then db.docs[id].(validation := None) else db.docs[id])
  }
}

=== FILE: wrappers.dfy ===
/** Optional values: SQL NULL for a nullable column, or a query that found no row. */
module Wrappers {

  datatype Option<+T> = None | Some(value: T)
}
